=== FILE: README.md ===
# ems-rn-demo screen logic in Dafny

The repository is a mobile front-end for expense management. Its data is hardcoded mock data, and all navigation happens on the client. The logic worth modelling sits inside five screens. This project models each piece as pure functions over immutable records:

- **Expense editor** (`ExpenseEdit`). It resolves which expense record a route id opens, validates a save, and edits the receipt list. Editing means adding with a fresh id, deleting after confirmation, and toggling each receipt's menu.
- **Report detail** (`ReportDetail`). Report fields default from route parameters. Expenses are flattened into a receipt list, each receipt tagged with its expense. The screen also chooses where submit returns to and builds the route to the expense editor. It decides the count label and the pdf-or-image icon.
- **Amount confirmation** (`ConfirmAmount`). A state machine over amount, editing and saved. The delayed saves are explicit pending timer events that fire as a separate step.
- **Receipt detail** (`ReceiptDetail`). Find-by-id falls back to the first receipt. It maps status to colour, upper-cases the status text, and applies display fallbacks for optional fields.
- **Login** (`Login`). It guards against empty credentials, sets the loading flag, and accepts after a delay. The pending timer holds the credentials its callback closed over.

Support modules:

- `Js` covers the JavaScript string semantics the handlers rely on: truthiness, the `trim` white-space set, `includes`, ASCII `toUpperCase`, and integer-to-decimal text. It also gives the exact syntactic condition under which `parseFloat` yields NaN.
- `Routing` holds route parameter values (absent, a string, or an array of strings) and navigation requests (`Push`, `Replace`, `Back`). A call to the router is modelled as a returned `Nav` value. An `Alert.alert` error is modelled as an error value. A screen step's visible effect is one `Effect`: nothing, an error dialog, or a navigation.
- `Wrappers` holds `Option`.
- `ReceiptMedia` holds the receipt record shared by the editor and the report screen, the add-menu sources, and the icon choice.

What the proofs establish:

- **Expense editor.**
  - A new receipt id is `max(ids, 0) + 1`. It is greater than every existing id, equals 1 on an empty list, and keeps ids unique.
  - Adding appends exactly one receipt and changes nothing else.
  - A confirmed delete removes exactly the receipts with that id and keeps the others in order. With unique ids, it removes exactly that position.
  - Deleting a just-added receipt restores the list.
  - A toggle flips one menu flag, and toggling twice restores every flag.
- **Report detail.** The flattened list is in expense order, then receipt order. Its length is the sum of the receipt counts. Every entry is a receipt of its expense, tagged with that expense.
- **Amount confirmation.** Three sequences of events show behaviour the screen's rendering does not expect:
  - Pressing the amount button and then "Incorrect" before the save timer fires ends in a form that is saved and also being edited. An amount typed in the meantime is saved without being confirmed.
  - The text input stays open between "Confirm" and its delayed save. An amount typed in that gap is the one saved, not the one confirmed.
  - A save scheduled before "Next receipt" still lands afterwards.

  Along every run without the first interleaving, a saved form is never being edited. On such runs the text input is never reachable while an amount-press save is pending.
- **Login.** Every step keeps the screen's invariant, and the "Invalid credentials" branch is never taken.

The confirmation saves and the login accept use `setTimeout`. They are modelled as pending events that fire as a step of their own.

## Model

| member | source | states |
|---|---|---|
| `ExpenseEdit.SwitchKey` | app/expense-edit.tsx:44 | a string id is used as is; an array id uses its first element; a missing id or an empty array gives no key |
| `ExpenseEdit.RouteKeyResolution` | app/expense-edit.tsx:43-115 | a missing or empty route id resolves to key '1', a non-empty string to itself, an array to its first element, an empty array to no key |
| `ExpenseEdit.GetExpenseData` | app/expense-edit.tsx:43-113 | a known key ('1', '2', '3') yields a record carrying that key; any other key yields the screen's fallback record with the raw route id |
| `ExpenseEdit.CurrentExpense` | app/expense-edit.tsx:115 | the record the screen opens: the lookup of the route id, with a missing or empty id read as '1' (characterised by `CurrentExpenseByKey`) |
| `ExpenseEdit.CurrentExpenseByKey` | app/expense-edit.tsx:23-115 | the record opened for a route id is the Lunch, Taxi or Hotel record for keys '1', '2', '3' and the fallback record otherwise; a missing id opens the lunch record |
| `ExpenseEdit.OpenEditor` | app/expense-edit.tsx:115-127 | the form keeps the route id and starts from the opened record's description, amount, date, category, comment and receipts, with no menu open; whichever record opens, its receipt ids are unique |
| `ExpenseEdit.HandleSave` | app/expense-edit.tsx:143-165 | a blank description is rejected first; then an amount that is blank or that parseFloat cannot read is rejected; otherwise the current values are saved and the screen goes back |
| `ExpenseEdit.BlankAmountIsNaN` | app/expense-edit.tsx:148 | a blank amount is already one that parseFloat cannot read, so the blank test adds no case |
| `Js.ParseFloatIsNaN` | app/expense-edit.tsx:148 | `isNaN(parseFloat(s))`: after leading white space and an optional sign, the text starts neither with `Infinity`, nor a digit, nor a '.' followed by a digit |
| `Js.Trim` | app/expense-edit.tsx:144 | `s.trim()`: the result is no longer than the input and neither starts nor ends with JavaScript white space |
| `Js.TrimEmptyIffBlank` | app/expense-edit.tsx:144 | `!s.trim()` holds exactly when every character is JavaScript white space |
| `ExpenseEdit.MaxId` | app/expense-edit.tsx:199 | the result bounds every receipt id from above, is at least 0, and is 0 or one of the ids |
| `ExpenseEdit.NextId` | app/expense-edit.tsx:199 | a new id exceeds every existing id, is at least 1, and is 1 on an empty list |
| `ExpenseEdit.HandleAddReceipt` | app/expense-edit.tsx:185-211 | exactly one receipt is appended and the earlier ones are untouched; its id is `max(ids, 0) + 1`, so it exceeds every earlier id and is 1 on an empty list; amount '$0.00' and today's date; it is a pdf exactly for a file upload and a jpeg otherwise; it takes the given name or the source's default; the add menu closes; nothing else changes |
| `ExpenseEdit.AddKeepsIdsUnique` | app/expense-edit.tsx:199-210 | adding preserves uniqueness of receipt ids |
| `ExpenseEdit.WithoutId` | app/expense-edit.tsx:227-229 | `receipts.filter(r => r.id !== id)`: the result is never longer than the list (members and order in the lemmas below) |
| `ExpenseEdit.WithoutIdMembers` | app/expense-edit.tsx:227-229 | the filtered list contains exactly the receipts whose id differs from the deleted one |
| `ExpenseEdit.WithoutIdConcat` | app/expense-edit.tsx:227-229 | filtering distributes over concatenation, so kept receipts keep their relative order |
| `ExpenseEdit.WithoutAbsentId` | app/expense-edit.tsx:227-229 | deleting an id that no receipt has leaves the list unchanged |
| `ExpenseEdit.WithoutIdSplice` | app/expense-edit.tsx:227-229 | with unique ids, deleting the id at position k removes exactly position k |
| `ExpenseEdit.HandleDeleteReceipt` | app/expense-edit.tsx:217-239 | cancel changes nothing; confirm removes exactly the receipts with that id, drops that id's menu entry, keeps the other menu entries, and changes nothing else |
| `ExpenseEdit.AddThenDeleteRestores` | app/expense-edit.tsx:185-234 | confirming deletion of a just-added receipt restores the previous receipt list |
| `ExpenseEdit.ToggleMenu` | app/expense-edit.tsx:241-246 | the given id's flag flips, with a missing flag read as false; the given id gains an entry; every other entry is unchanged |
| `ExpenseEdit.ToggleTwice` | app/expense-edit.tsx:241-246 | toggling the same menu twice shows exactly the menus shown before |
| `ExpenseEdit.HandleToggleMenu` | app/expense-edit.tsx:241-246 | only the given receipt's menu visibility changes, and nothing else in the editor does |
| `ExpenseEdit.HandleViewReceipt` | app/expense-edit.tsx:391-394 | "View" closes every receipt menu and changes nothing else |
| `ExpenseEdit.BadgeFor` | app/expense-edit.tsx:256-263 | 'Approved' and 'Pending' get their own badges; every other status gets the rejected badge |
| `ExpenseEdit.HandleDeleteExpense` | app/expense-edit.tsx:167-183 | a confirmed delete goes back; a cancelled one does nothing |
| `ReceiptMedia.ReceiptName` | app/expense-edit.tsx:192-196 | a non-empty given name is kept; an empty one becomes the source's default name |
| `ReceiptMedia.MimeType` | app/expense-edit.tsx:186-190 | a file upload is 'application/pdf'; a photo and a photo upload are 'image/jpeg' |
| `ReceiptMedia.DefaultName` | app/expense-edit.tsx:192-196 | each source has a non-empty default name ('Camera Photo', 'Uploaded Photo', 'Uploaded File'), so a new receipt never has an empty name |
| `ReceiptMedia.IconFor` | app/report-detail.tsx:368 | the pdf icon is chosen exactly when the MIME type contains "pdf" somewhere |
| `ReceiptMedia.IconOfNewReceipt` | app/expense-edit.tsx:372 | a newly added receipt shows the pdf icon exactly when it came from a file upload |
| `Js.Includes` | app/report-detail.tsx:368 | `includes` is true exactly when the substring occurs at some position |
| `ReportDetail.SourcePage` | app/report-detail.tsx:21 | an absent or empty source page defaults to '/(tabs)/expenses'; any other value is kept |
| `ReportDetail.ReportData` | app/report-detail.tsx:24-31 | each absent or empty parameter falls back to its default: name '3.4.25 Report', date 'Mar 4, 2025', purpose and comment ''; the status is 'Not Submitted' |
| `ReportDetail.OptionalRowsShown` | app/report-detail.tsx:281-294 | the business purpose and comment rows show exactly when their parameter was given and not empty; name and date are never empty |
| `ReportDetail.HandleSubmit` | app/report-detail.tsx:156-177 | submit returns to '/(tabs)/credit-cards' exactly when the source page parameter is that string, and to '/(tabs)/expenses' otherwise |
| `ReportDetail.Tagged` | app/report-detail.tsx:97-101 | each receipt of an expense is listed in order, with its own fields unchanged plus the expense's id and description |
| `ReportDetail.Flatten` | app/report-detail.tsx:96-102 | the flattened list's length is the sum of the expenses' receipt counts |
| `ReportDetail.FlattenPosition` | app/report-detail.tsx:96-102 | receipt j of expense i sits at offset (receipts before expense i) + j and carries expense i's id and description, so the list runs in expense order, then receipt order |
| `ReportDetail.FlattenOrigin` | app/report-detail.tsx:96-102 | every entry of the flattened list is some receipt of some expense, tagged with that expense |
| `ReportDetail.MockReceiptsListed` | app/report-detail.tsx:34-102 | the report's own expenses yield four receipts with ids 1 to 4, the last from "Hotel Stay" |
| `ReportDetail.ReceiptCountText` | app/report-detail.tsx:330 | the label is '<n> receipt' exactly when n is 1, and ends in 's' exactly when n is not 1 |
| `ReportDetail.ListedIcons` | app/report-detail.tsx:368 | in the report's receipt list only the hotel invoice gets the pdf icon |
| `Js.IntToStringRoundTrip` | app/report-detail.tsx:207 | the decimal text of an integer id reads back as the same id |
| `Js.ParseNatOfNatToString` | app/report-detail.tsx:207 | the decimal text of a natural number reads back as that number |
| `Js.NatToString` | app/report-detail.tsx:330 | the decimal text of a count is non-empty, all digits, and has no leading zero |
| `Js.IntToString` | app/report-detail.tsx:207 | `${id}`: a non-negative id prints as digits without a leading zero; a negative one as '-' followed by such digits |
| `ReportDetail.ExpensePressParam` | app/report-detail.tsx:207 | the editor reads back exactly `String(id)` as its `id` parameter |
| `ReportDetail.HandleExpensePress` | app/report-detail.tsx:205-208 | pressing an expense pushes '/expense-edit?id=<id>', whose id part reads back as the pressed id and, for a non-negative id, has no leading zero, as `${id}` prints it |
| `ReportDetail.ExpensePressOpensSameExpense` | app/report-detail.tsx:205-208 | for each expense of the report, the editor opened by its route shows a record with the same description, category, status and receipts |
| `ReportDetail.HandleMenuItemPress` | app/report-detail.tsx:179-203 | the add menu closes; only "Take Photo" navigates, to '/confirm-amount' |
| `ConfirmAmount.InitialConsistent` | app/confirm-amount.tsx:18-20 | the form starts with amount '50.52', not editing, not saved, and satisfies the screen invariant |
| `ConfirmAmount.HandleConfirm` | app/confirm-amount.tsx:47-56 | Confirm only schedules a save callback and changes nothing immediately |
| `ConfirmAmount.HandleIncorrect` | app/confirm-amount.tsx:58-61 | Incorrect starts editing and leaves the amount, the saved flag and the pending saves unchanged |
| `ConfirmAmount.HandleAmountPress` | app/confirm-amount.tsx:63-71 | the amount button only schedules a save callback and changes nothing immediately |
| `ConfirmAmount.RunTimer` | app/confirm-amount.tsx:52-70 | a firing save sets saved and keeps the amount; the Confirm save also ends editing; the amount-press save leaves editing as it was |
| `ConfirmAmount.ConfirmSaveIdempotent` | app/confirm-amount.tsx:52-55 | running the Confirm save callback twice has the effect of running it once |
| `ConfirmAmount.HandleNextReceipt` | app/confirm-amount.tsx:73-80 | Next receipt resets to not saved, not editing, amount '0.00', and keeps already scheduled saves pending |
| `ConfirmAmount.Enabled` | app/confirm-amount.tsx:152-214 | which controls are rendered: the amount button while unsaved and not editing, the text input while unsaved and editing, the secondary button while unsaved, Next receipt and Done once saved; the header back arrow (lines 33-38) always; a timer fires only when one is pending |
| `ConfirmAmount.Step` | app/confirm-amount.tsx:152-214 | the amount button runs its handler; the secondary button dispatches to Confirm while editing and to Incorrect otherwise; typing sets the amount; Next receipt runs its handler; Done leaves the form as it is; only Done and the header's back arrow navigate, both back, and the arrow changes nothing else; a firing timer runs the oldest pending save |
| `ConfirmAmount.NoEditWhileAmountSavePending` | app/confirm-amount.tsx:63-71 | on every run from the initial form in which Incorrect never interleaves with a pending amount-press save, the text input is unreachable while such a save is pending |
| `ConfirmAmount.StepKeepsConsistent` | app/confirm-amount.tsx:63-71 | every step except "Incorrect" with an amount-press save pending keeps "saved implies not editing" and "a pending amount-press save implies not editing" |
| `ConfirmAmount.DisciplinedRunsConsistent` | app/confirm-amount.tsx:152-189 | along every run in which Incorrect never interleaves with a pending amount-press save, every state reached has saved implies not editing |
| `ConfirmAmount.InterleavingSavesUnconfirmedEdit` | app/confirm-amount.tsx:63-71 | amount press, Incorrect, an edit, then the timer, leaves the form saved and editing, with the edited amount never confirmed |
| `ConfirmAmount.EditAfterConfirmSavesLaterAmount` | app/confirm-amount.tsx:47-56 | a run with no interleaving (Incorrect, type '1.00', Confirm, type '2.00', the timer) ends saved with '2.00', though '1.00' was shown at the Confirm press |
| `ConfirmAmount.StaleSaveAfterNextReceipt` | app/confirm-amount.tsx:73-80 | a second amount press, saved, then Next receipt, then the leftover timer, marks the new receipt saved with amount '0.00' |
| `ReceiptDetail.FirstMatch` | app/receipt-detail.tsx:54 | the result is the position of the first receipt whose id equals the parameter, or none when no receipt matches |
| `ReceiptDetail.FindReceipt` | app/receipt-detail.tsx:54 | the result is always a member of the list; it is the first matching receipt when one exists and the first receipt otherwise |
| `ReceiptDetail.MockLookup` | app/receipt-detail.tsx:17-54 | ids '2' and '3' find their receipts; every other parameter, including a missing or array one, shows receipt '1' |
| `ReceiptDetail.StatusColour` | app/receipt-detail.tsx:56-63 | approved, pending and rejected map to green, orange and red; every other status maps to grey; the mapping is total |
| `ReceiptDetail.StatusColoursDistinct` | app/receipt-detail.tsx:56-63 | the three statuses get three different hex colours, none of them the default grey |
| `ReceiptDetail.Hex` | app/receipt-detail.tsx:58-61 | the hex code of each status colour, as `getStatusColor` returns it |
| `Js.ToUpperCase` | app/receipt-detail.tsx:83 | upper-casing keeps the length, maps every ASCII lower-case letter to its capital and leaves other characters alone |
| `Js.ToUpperCaseIdempotent` | app/receipt-detail.tsx:122 | upper-casing twice is the same as upper-casing once |
| `ReceiptDetail.StatusText` | app/receipt-detail.tsx:83 | the status chip text has no lower-case letter; the three statuses read APPROVED, PENDING, REJECTED |
| `ReceiptDetail.CategoryText` | app/receipt-detail.tsx:104 | a missing or empty category displays as 'Uncategorized'; any other category displays as is |
| `ReceiptDetail.ShowReceipt` | app/receipt-detail.tsx:54-136 | the shown receipt is the one the lookup finds, its colour is its status colour, its category text follows the 'Uncategorized' fallback, its status is upper-cased, the notes card and merchant line appear exactly for present non-empty values, and its colour is never the default grey |
| `Login.HandleLogin` | app/login.tsx:11-18 | an empty email or password shows the error and changes nothing; otherwise loading starts and the accept timer captures the checked values |
| `Login.FireTimer` | app/login.tsx:20-29 | loading ends; the screen goes to '/(tabs)' exactly when the captured values are both non-empty, and shows "Invalid credentials" otherwise |
| `Login.HandleDemoLogin` | app/login.tsx:32-35 | the demo pair is filled in; loading and any pending timer are untouched, so nothing is submitted |
| `Login.Enabled` | app/login.tsx:71 | the sign-in button is disabled while loading; typing and the demo button are always available; the timer fires only when scheduled |
| `Login.Step` | app/login.tsx:46-87 | typing changes only its field and has no effect; sign-in runs the login handler, the demo button fills in the demo pair, and a firing timer runs the accept callback |
| `Login.StepKeepsValid` | app/login.tsx:67-71 | every available step keeps the invariant (loading exactly while a timer is pending, and the timer holds non-empty values); sign-in is available only with no timer pending |
| `Login.TimerAlwaysAccepts` | app/login.tsx:23-28 | in a valid state the timer always navigates to '/(tabs)', so the "Invalid credentials" branch is unreachable |
| `Login.RunsNeverRejectCredentials` | app/login.tsx:11-30 | from any valid state, no sequence of events in which each event is available when it comes ever shows "Invalid credentials", and every state reached is valid |
| `Login.InitialValid` | app/login.tsx:7-9 | the screen starts valid and not loading |
| `Login.DemoSignInGoesHome` | app/login.tsx:32-35 | demo fill, sign in, then the timer: the demo pair stays filled in, loading has ended, and the last effect is navigation to '/(tabs)' |

## Left out

- Layout, styles, icons (beyond the pdf-or-image choice) and theme are presentation only. This covers the JSX trees, the `styles` blocks and app/_layout.tsx.
- app/components/ProfileHeader.tsx and app/components/ProfileMenu.tsx are left out. They hold only open/close flags and router calls.
- app/index.tsx is left out. It is a one-shot timer redirect to the login screen.
- The tab screens under app/(tabs)/ are not part of this model. This covers the list filters, totals, approvals, credit cards and report creation.
- Router internals, `Alert` dialogs and `console.log` are left out.
  - Navigation is a returned `Nav` value.
  - An error dialog is an error value.
  - A two-button confirmation is a `Choice` argument.
- `ReportDetail.ExpenseEditParam`: the router's query-string parsing is modelled only for the one route shape '/expense-edit?id=<v>'. It does no URL decoding, which digits and '-' do not need.
- The expense editor's header back arrow is left out. It only navigates back, like a confirmed `HandleDeleteExpense`, and changes no state. The confirmation screen's back arrow is modelled.
- Timer durations are left out. Only the order of the deferred events is kept. All of a screen's timers have equal delays, so they fire in the order scheduled.
- Timers that fire after the screen is left are not modelled. In the source, React ignores state updates on an unmounted screen; the model keeps updating the state.
- The value of `parseFloat` is not modelled, and neither are `toFixed` or `toLocaleDateString`. Only whether `parseFloat` yields NaN is modelled. The current date is an opaque `today` argument.
- `Js.ToUpperCase`: only ASCII letters are mapped, because full Unicode case mapping is not modelled. The statuses it is applied to are ASCII.
- `ExpenseEdit.NextId`: receipt ids are unbounded integers. In the source they are JavaScript numbers, and `+ 1` is exact only below 2^53, so the freshness proof holds for ids below that bound. The seeded ids are 1 to 4 and grow by one per add.
- `Js.IntToString`: integers of 10^21 and above are printed in plain decimal, not in JavaScript's exponent form. Receipt and expense ids are small.
- `ReceiptDetail.FindReceipt`: requires a non-empty list. The screen searches a fixed list of three receipts, and the source would fail on an empty one.
- The editor's unused state `newReceiptName`, `newReceiptAmount` and `newReceiptType` is left out. It is initialised and never read.
- The add menu's open and dismiss handlers are left out. Each sets one flag with no other logic. The closing done by `handleAddReceipt` is modelled.
- Opening the report screen's header menu (the "+" button) and dismissing it by its overlay are left out; closing it on a menu item press is modelled. Also left out: the report screen's tab selection, the mock comments and the constant reimbursable total are display state with no logic.
- The receipt detail screen's Edit and Delete buttons are left out. They only show placeholder dialogs.
- Amounts are kept as text, or as a real number on the receipt detail screen. No arithmetic is done on them.

=== FILE: confirm_amount.dfy ===
/** The receipt amount confirmation screen (app/confirm-amount.tsx) as a
    state machine over (amount, isEditing, isSaved). The two handlers that
    "save" do so from a timer callback; here each pending callback is an
    entry of a queue that a separate `TimerFires` event delivers. All the
    callbacks have the same delay, so they fire in the order they were
    scheduled. */
module ConfirmAmount {
  import opened Wrappers
  import opened Routing

  /** A scheduled save callback: the one `handleConfirm` schedules, or the
      one `handleAmountPress` schedules. */
  datatype Timer = ConfirmSave | AmountSave

  datatype Screen = Screen(amount: string, isEditing: bool, isSaved: bool, pending: seq<Timer>)

  /** What the user can do, and the timer delivering a callback. */
  datatype Event =
    | PressAmount            // the "$<amount>" button
    | PressSecondary         // the "Incorrect" / "Confirm" button
    | EditAmount(text: string)
    | PressNextReceipt
    | PressDone
    | PressBackArrow         // the header's back arrow
    | TimerFires

  const Initial := Screen("50.52", false, false, [])

  // ---------------------------------------------------------------------
  // Handlers
  // ---------------------------------------------------------------------

  /** `handleConfirm`: schedules a callback and changes nothing now. */
  function HandleConfirm(s: Screen): (r: Screen)
    ensures r.pending == s.pending + [ConfirmSave]
    ensures r.(pending := s.pending) == s
  {
    s.(pending := s.pending + [ConfirmSave])
  }

  /** `handleIncorrect`: editing starts; nothing else changes. */
  function HandleIncorrect(s: Screen): (r: Screen)
    ensures r.isEditing
    ensures r.amount == s.amount && r.isSaved == s.isSaved && r.pending == s.pending
  {
    s.(isEditing := true)
  }

  /** `handleAmountPress`: schedules a callback and changes nothing now. */
  function HandleAmountPress(s: Screen): (r: Screen)
    ensures r.pending == s.pending + [AmountSave]
    ensures r.(pending := s.pending) == s
  {
    s.(pending := s.pending + [AmountSave])
  }

  /** `handleNextReceipt`: back to an unsaved, non-editing form with a zero
      amount. Callbacks already scheduled stay scheduled. */
  function HandleNextReceipt(s: Screen): (r: Screen)
    ensures !r.isSaved && !r.isEditing && r.amount == "0.00"
    ensures r.pending == s.pending
  {
    s.(isSaved := false, amount := "0.00", isEditing := false)
  }

  /** The effect of a save callback when it runs. */
  function RunTimer(t: Timer, s: Screen): (r: Screen)
    ensures r.isSaved && r.amount == s.amount && r.pending == s.pending
    ensures t == ConfirmSave ==> !r.isEditing
    ensures t == AmountSave ==> r.isEditing == s.isEditing
  {
    match t
    case ConfirmSave => s.(isSaved := true, isEditing := false)
    case AmountSave => s.(isSaved := true)
  }

  /** Running the confirm callback a second time changes nothing. */
  lemma ConfirmSaveIdempotent(s: Screen)
    ensures RunTimer(ConfirmSave, RunTimer(ConfirmSave, s)) == RunTimer(ConfirmSave, s)
  {
  }

  // ---------------------------------------------------------------------
  // What the screen lets the user reach
  // ---------------------------------------------------------------------

  /** The amount button and the secondary button are rendered only while
      unsaved, the amount button only while not editing, the text input
      only while editing, and the "Next receipt" and "Done" buttons only
      once saved. The header's back arrow is always there. A timer can fire
      whenever one is pending. */
  predicate Enabled(s: Screen, ev: Event) {
    match ev
    case PressAmount => !s.isSaved && !s.isEditing
    case PressSecondary => !s.isSaved
    case EditAmount(_) => !s.isSaved && s.isEditing
    case PressNextReceipt => s.isSaved
    case PressDone => s.isSaved
    case PressBackArrow => true
    case TimerFires => s.pending != []
  }

  /** One event: the new screen state and the navigation it requests. The
      secondary button runs `handleConfirm` while editing and
      `handleIncorrect` otherwise. */
  function Step(s: Screen, ev: Event): (r: (Screen, Effect))
    requires Enabled(s, ev)
    ensures ev == PressAmount ==> r.0 == HandleAmountPress(s)
    ensures ev == PressSecondary ==> r.0 == (if s.isEditing then HandleConfirm(s) else HandleIncorrect(s))
    ensures ev.EditAmount? ==> r.0 == s.(amount := ev.text)
    ensures ev == PressNextReceipt ==> r.0 == HandleNextReceipt(s)
    ensures ev == PressDone ==> r.0 == s
    ensures ev == PressDone || ev == PressBackArrow <==> r.1 == Navigate(Back)
    ensures ev != PressDone && ev != PressBackArrow ==> r.1 == Nothing
    ensures ev == PressBackArrow ==> r.0 == s
    ensures ev == TimerFires ==> r.0 == RunTimer(s.pending[0], s.(pending := s.pending[1..]))
  {
    match ev
    case PressAmount => (HandleAmountPress(s), Nothing)
    case PressSecondary => (if s.isEditing then HandleConfirm(s) else HandleIncorrect(s), Nothing)
    case EditAmount(text) => (s.(amount := text), Nothing)
    case PressNextReceipt => (HandleNextReceipt(s), Nothing)
    case PressDone => (s, Navigate(Back))
    case PressBackArrow => (s, Navigate(Back))
    case TimerFires => (RunTimer(s.pending[0], s.(pending := s.pending[1..])), Nothing)
  }

  /** The state after a sequence of events, or nothing if some event was
      not available when it came. */
  function Run(s: Screen, evs: seq<Event>): (r: Option<Screen>)
    ensures evs == [] ==> r == Some(s)
    decreases |evs|
  {
    if evs == [] then Some(s)
    else if !Enabled(s, evs[0]) then None
    else Run(Step(s, evs[0]).0, evs[1..])
  }

  // ---------------------------------------------------------------------
  // Saved implies not editing
  // ---------------------------------------------------------------------

  /** The invariant the screen's rendering assumes: a saved form is not
      being edited, and a pending amount-press save was scheduled while not
      editing and is still owed that. */
  predicate Consistent(s: Screen) {
    && (s.isSaved ==> !s.isEditing)
    && (AmountSave in s.pending ==> !s.isEditing)
  }

  /** The one interleaving that breaks it: "Incorrect" pressed while an
      amount-press save is still pending. */
  predicate Interleaves(s: Screen, ev: Event) {
    ev == PressSecondary && !s.isEditing && AmountSave in s.pending
  }

  lemma InitialConsistent()
    ensures Consistent(Initial)
  {
  }

  /** Every step other than the interleaving keeps the invariant. */
  lemma StepKeepsConsistent(s: Screen, ev: Event)
    requires Enabled(s, ev)
    requires Consistent(s)
    requires !Interleaves(s, ev)
    ensures Consistent(Step(s, ev).0)
  {
    if ev == TimerFires {
      assert s.pending == [s.pending[0]] + s.pending[1..];
    }
  }

  /** No event of the run interleaves "Incorrect" with a pending
      amount-press save. */
  predicate Disciplined(s: Screen, evs: seq<Event>)
    decreases |evs|
  {
    evs == [] || (Enabled(s, evs[0]) && !Interleaves(s, evs[0]) && Disciplined(Step(s, evs[0]).0, evs[1..]))
  }

  /** Along every run without that interleaving, a saved form is never
      being edited. */
  lemma {:induction false} DisciplinedRunsConsistent(s: Screen, evs: seq<Event>)
    requires Consistent(s)
    requires Disciplined(s, evs)
    ensures Run(s, evs).Some?
    ensures Consistent(Run(s, evs).value)
    ensures Run(s, evs).value.isSaved ==> !Run(s, evs).value.isEditing
    decreases |evs|
  {
    if evs != [] {
      StepKeepsConsistent(s, evs[0]);
      DisciplinedRunsConsistent(Step(s, evs[0]).0, evs[1..]);
    }
  }

  /** On every run from the initial form without the interleaving, the
      text input is never reachable while an amount-press save is pending,
      so that save cannot pick up a typed amount. */
  lemma {:induction false} NoEditWhileAmountSavePending(evs: seq<Event>, t: string)
    requires Disciplined(Initial, evs)
    ensures Run(Initial, evs).Some?
    ensures AmountSave in Run(Initial, evs).value.pending ==> !Enabled(Run(Initial, evs).value, EditAmount(t))
  {
    InitialConsistent();
    DisciplinedRunsConsistent(Initial, evs);
  }

  /** With the interleaving, the amount-press save lands while editing:
      the form becomes saved with an amount typed in but never confirmed. */
  lemma InterleavingSavesUnconfirmedEdit()
    ensures Run(Initial, [PressAmount, PressSecondary, EditAmount("99.00"), TimerFires])
         == Some(Screen("99.00", true, true, []))
  {
  }

  /** Even without the interleaving, the text input stays open between
      Confirm and its save: an amount typed after Confirm ("2.00") is the
      one saved, not the one shown when Confirm was pressed ("1.00"). */
  lemma EditAfterConfirmSavesLaterAmount()
    ensures Disciplined(Initial, [PressSecondary, EditAmount("1.00"), PressSecondary, EditAmount("2.00"), TimerFires])
    ensures Run(Initial, [PressSecondary, EditAmount("1.00"), PressSecondary]) == Some(Screen("1.00", true, false, [ConfirmSave]))
    ensures Run(Initial, [PressSecondary, EditAmount("1.00"), PressSecondary, EditAmount("2.00"), TimerFires])
         == Some(Screen("2.00", false, true, []))
  {
    var confirmed := Screen("1.00", true, false, [ConfirmSave]);
    assert [] + [ConfirmSave] == [ConfirmSave];
    assert Run(confirmed, []) == Some(confirmed);
    assert Run(Screen("1.00", true, false, []), [PressSecondary]) == Some(confirmed);
    assert Run(Screen("50.52", true, false, []), [EditAmount("1.00"), PressSecondary]) == Some(confirmed);
  }

  /** A save scheduled before "Next receipt" still lands afterwards: the
      next receipt's form becomes saved without any press. */
  lemma StaleSaveAfterNextReceipt()
    ensures Run(Initial, [PressAmount, PressAmount, TimerFires, PressNextReceipt, TimerFires])
         == Some(Screen("0.00", false, true, []))
  {
  }
}

=== FILE: expense_edit.dfy ===
/** The expense editor screen (app/expense-edit.tsx): which expense record
    a route opens, the save validation, and the receipt list editor with its
    per-receipt menus. */
module ExpenseEdit {
  import opened Js
  import opened Routing
  import opened ReceiptMedia

  /** An expense as the editor receives it. `id` is whatever the record
      carries: the normalised key for a known record, the raw route
      parameter for the fallback record. */
  datatype Expense = Expense(
    id: Param,
    description: string,
    amount: string,
    date: string,
    category: string,
    status: string,
    comment: string,
    receipts: seq<Receipt>)

  // ---------------------------------------------------------------------
  // Record lookup
  // ---------------------------------------------------------------------

  function Lunch(id: Param): Expense {
    Expense(id, "Business Lunch", "45.50", "2025-03-04", "Meals", "Approved",
            "Client meeting lunch",
            [Receipt(1, "Restaurant Receipt", "Mar 4, 2025", "$45.50", "image/jpeg")])
  }

  function Taxi(id: Param): Expense {
    Expense(id, "Taxi to Airport", "35.00", "2025-03-03", "Transportation", "Pending",
            "Airport transfer",
            [Receipt(2, "Taxi Receipt", "Mar 3, 2025", "$35.00", "image/png")])
  }

  function Hotel(id: Param): Expense {
    Expense(id, "Hotel Stay", "165.00", "2025-03-02", "Accommodation", "Approved",
            "Business trip accommodation",
            [Receipt(3, "Hotel Invoice", "Mar 2, 2025", "$165.00", "application/pdf"),
             Receipt(4, "Hotel Parking Receipt", "Mar 2, 2025", "$15.00", "image/jpeg")])
  }

  /** The keys the lookup knows. */
  predicate KnownKey(key: Param) {
    key == Str("1") || key == Str("2") || key == Str("3")
  }

  /** `Array.isArray(id) ? id[0] : id`; the first element of an empty
      array is `undefined`. */
  function SwitchKey(id: Param): (key: Param)
    ensures id.Str? ==> key == id
    ensures id.Arr? && id.values != [] ==> key == Str(id.values[0])
    ensures id == Absent || id == Arr([]) ==> key == Absent
    ensures key.Arr? == false
  {
    match id
    case Absent => Absent
    case Str(_) => id
    case Arr(xs) => if xs == [] then Absent else Str(xs[0])
  }

  /** `getExpenseData(id)`. The `default` branch returns the screen's
      `mockExpenseData`, whose id is the raw route parameter `routeId`. */
  function GetExpenseData(id: Param, routeId: Param): (e: Expense)
    ensures KnownKey(SwitchKey(id)) ==> e.id == SwitchKey(id)
    ensures !KnownKey(SwitchKey(id)) ==> e == Lunch(routeId)
  {
    match SwitchKey(id)
    case Str("1") => Lunch(Str("1"))
    case Str("2") => Taxi(Str("2"))
    case Str("3") => Hotel(Str("3"))
    case _ => Lunch(routeId)
  }

  /** `getExpenseData(expenseId || '1')`: the record the screen opens with. */
  function CurrentExpense(routeId: Param): Expense {
    GetExpenseData(ParamOr(routeId, "1"), routeId)
  }

  /** The key a route id resolves to: a missing or empty id means '1', an
      array id means its first element. */
  lemma RouteKeyResolution(routeId: Param)
    ensures routeId == Absent || routeId == Str("") ==> SwitchKey(ParamOr(routeId, "1")) == Str("1")
    ensures routeId.Str? && routeId.value != "" ==> SwitchKey(ParamOr(routeId, "1")) == routeId
    ensures routeId.Arr? && routeId.values != [] ==> SwitchKey(ParamOr(routeId, "1")) == Str(routeId.values[0])
    ensures routeId == Arr([]) ==> SwitchKey(ParamOr(routeId, "1")) == Absent
  {
  }

  /** Lookup is total, returns the record of a known key, and the fallback
      record (carrying the raw route id) for every other id. */
  lemma CurrentExpenseByKey(routeId: Param)
    ensures SwitchKey(ParamOr(routeId, "1")) == Str("1") ==> CurrentExpense(routeId) == Lunch(Str("1"))
    ensures SwitchKey(ParamOr(routeId, "1")) == Str("2") ==> CurrentExpense(routeId) == Taxi(Str("2"))
    ensures SwitchKey(ParamOr(routeId, "1")) == Str("3") ==> CurrentExpense(routeId) == Hotel(Str("3"))
    ensures !KnownKey(SwitchKey(ParamOr(routeId, "1"))) ==> CurrentExpense(routeId) == Lunch(routeId)
    ensures routeId == Absent ==> CurrentExpense(routeId).description == "Business Lunch"
  {
  }

  // ---------------------------------------------------------------------
  // Editor state
  // ---------------------------------------------------------------------

  /** The screen's state: the opened record (for the id and the status
      badge), the form fields, the receipt list, the per-receipt menu
      flags and the add-menu flag. */
  datatype Editor = Editor(
    routeId: Param,
    record: Expense,
    description: string,
    amount: string,
    date: string,
    category: string,
    comment: string,
    receipts: seq<Receipt>,
    menuVisible: map<int, bool>,
    addMenuVisible: bool)

  /** The form as the screen first renders it: every field starts from the
      opened record, and whichever record opens, its receipt ids are
      unique. */
  function OpenEditor(routeId: Param): (e: Editor)
    ensures e.routeId == routeId
    ensures e.record == CurrentExpense(routeId)
    ensures e.description == e.record.description && e.amount == e.record.amount
    ensures e.date == e.record.date && e.category == e.record.category && e.comment == e.record.comment
    ensures e.receipts == e.record.receipts
    ensures UniqueIds(e.receipts)
    ensures e.menuVisible == map[] && !e.addMenuVisible
  {
    var rec := CurrentExpense(routeId);
    Editor(routeId, rec, rec.description, rec.amount, rec.date, rec.category, rec.comment,
           rec.receipts, map[], false)
  }

  // ---------------------------------------------------------------------
  // Save
  // ---------------------------------------------------------------------

  const DescriptionError := "Please enter a description"
  const AmountError := "Please enter a valid amount"

  /** The values the save logs. */
  datatype SavedExpense = SavedExpense(
    id: Param, description: string, amount: string, date: string,
    category: string, comment: string, receipts: seq<Receipt>)

  /** A rejected save shows an error and stays; an accepted one records
      the values and, once the success dialog is dismissed, goes back. */
  datatype SaveResult = Rejected(message: string) | Saved(saved: SavedExpense, after: Nav)

  /** `handleSave`. */
  function HandleSave(e: Editor): (r: SaveResult)
    ensures IsBlank(e.description) ==> r == Rejected(DescriptionError)
    ensures !IsBlank(e.description) && ParseFloatIsNaN(e.amount) ==> r == Rejected(AmountError)
    ensures r.Saved? <==> !IsBlank(e.description) && !ParseFloatIsNaN(e.amount)
    ensures r.Saved? ==>
      && r.after == Back
      && r.saved == SavedExpense(e.routeId, e.description, e.amount, e.date,
                                 e.category, e.comment, e.receipts)
  {
    TrimEmptyIffBlank(e.description);
    TrimEmptyIffBlank(e.amount);
    BlankAmountIsNaN(e.amount);
    if Trim(e.description) == [] then Rejected(DescriptionError)
    else if Trim(e.amount) == [] || ParseFloatIsNaN(e.amount) then Rejected(AmountError)
    else Saved(SavedExpense(e.routeId, e.description, e.amount, e.date,
                            e.category, e.comment, e.receipts), Back)
  }

  /** The blank-amount test is subsumed by the NaN test: `parseFloat` of a
      blank string is NaN. */
  lemma BlankAmountIsNaN(s: string)
    ensures IsBlank(s) ==> ParseFloatIsNaN(s)
  {
    if IsBlank(s) {
      assert LeadingBlanks(s) == |s|;
    }
  }

  // ---------------------------------------------------------------------
  // Adding receipts
  // ---------------------------------------------------------------------

  /** `Math.max(...receipts.map(r => r.id), 0)`. */
  function MaxId(rs: seq<Receipt>): (m: int)
    ensures m >= 0
    ensures forall i :: 0 <= i < |rs| ==> rs[i].id <= m
    ensures m == 0 || exists i :: 0 <= i < |rs| && rs[i].id == m
  {
    if rs == [] then 0
    else
      var m' := MaxId(rs[..|rs| - 1]);
      var last := rs[|rs| - 1].id;
      if last > m' then last else m'
  }

  /** The id a new receipt gets: one more than the largest id, and at
      least 1. */
  function NextId(rs: seq<Receipt>): (id: int)
    ensures id >= 1
    ensures forall i :: 0 <= i < |rs| ==> rs[i].id < id
    ensures rs == [] ==> id == 1
    ensures id == 1 || exists i :: 0 <= i < |rs| && rs[i].id == id - 1
  {
    MaxId(rs) + 1
  }

  /** No two receipts of the list share an id. */
  predicate UniqueIds(rs: seq<Receipt>) {
    forall i, j :: 0 <= i < j < |rs| ==> rs[i].id != rs[j].id
  }

  /** `handleAddReceipt(source, name)`; `today` stands for the locale
      formatted current date. */
  function HandleAddReceipt(e: Editor, source: Source, name: string, today: string): (r: Editor)
    ensures |r.receipts| == |e.receipts| + 1
    ensures r.receipts[..|e.receipts|] == e.receipts
    ensures var added := r.receipts[|e.receipts|];
      && added.id == NextId(e.receipts)
      && (forall i :: 0 <= i < |e.receipts| ==> e.receipts[i].id < added.id)
      && added.amount == "$0.00"
      && added.date == today
      && (added.mimeType == "application/pdf" <==> source == UploadFile)
      && (source != UploadFile ==> added.mimeType == "image/jpeg")
      && (name != [] ==> added.name == name)
      && (name == [] ==> added.name == DefaultName(source))
    ensures !r.addMenuVisible
    ensures r.(receipts := e.receipts, addMenuVisible := e.addMenuVisible) == e
  {
    var added := Receipt(NextId(e.receipts), ReceiptName(source, name), today, "$0.00", MimeType(source));
    e.(receipts := e.receipts + [added], addMenuVisible := false)
  }

  lemma AddKeepsIdsUnique(e: Editor, source: Source, name: string, today: string)
    requires UniqueIds(e.receipts)
    ensures UniqueIds(HandleAddReceipt(e, source, name, today).receipts)
  {
    var r := HandleAddReceipt(e, source, name, today).receipts;
    forall i, j | 0 <= i < j < |r|
      ensures r[i].id != r[j].id
    {
      if j < |e.receipts| {
        assert r[i] == e.receipts[i] && r[j] == e.receipts[j];
      } else {
        assert r[i] == e.receipts[i];
      }
    }
  }

  // ---------------------------------------------------------------------
  // Deleting receipts
  // ---------------------------------------------------------------------

  /** `receipts.filter(r => r.id !== id)`. */
  function WithoutId(rs: seq<Receipt>, id: int): (r: seq<Receipt>)
    ensures |r| <= |rs|
  {
    if rs == [] then []
    else (if rs[0].id == id then [] else [rs[0]]) + WithoutId(rs[1..], id)
  }

  /** The filtered list holds exactly the receipts whose id differs. */
  lemma {:induction false} WithoutIdMembers(rs: seq<Receipt>, id: int)
    ensures forall x :: x in WithoutId(rs, id) <==> x in rs && x.id != id
  {
    if rs != [] {
      WithoutIdMembers(rs[1..], id);
      assert rs == [rs[0]] + rs[1..];
    }
  }

  /** Filtering distributes over concatenation: the kept receipts keep
      their relative order. */
  lemma {:induction false} WithoutIdConcat(a: seq<Receipt>, b: seq<Receipt>, id: int)
    ensures WithoutId(a + b, id) == WithoutId(a, id) + WithoutId(b, id)
  {
    if a != [] {
      assert (a + b)[1..] == a[1..] + b;
      WithoutIdConcat(a[1..], b, id);
    } else {
      assert a + b == b;
    }
  }

  /** Deleting an id no receipt has changes nothing. */
  lemma {:induction false} WithoutAbsentId(rs: seq<Receipt>, id: int)
    requires forall i :: 0 <= i < |rs| ==> rs[i].id != id
    ensures WithoutId(rs, id) == rs
  {
    if rs != [] {
      WithoutAbsentId(rs[1..], id);
    }
  }

  /** With unique ids, deleting the id at position k removes exactly that
      position. */
  lemma {:induction false} WithoutIdSplice(rs: seq<Receipt>, k: int)
    requires UniqueIds(rs)
    requires 0 <= k < |rs|
    ensures WithoutId(rs, rs[k].id) == rs[..k] + rs[k + 1..]
  {
    var id := rs[k].id;
    var tail := rs[1..];
    if k == 0 {
      forall i | 0 <= i < |tail|
        ensures tail[i].id != id
      {
        assert tail[i] == rs[i + 1];
      }
      WithoutAbsentId(tail, id);
    } else {
      assert tail[k - 1] == rs[k];
      WithoutIdSplice(tail, k - 1);
      assert [rs[0]] + (tail[..k - 1] + tail[k..]) == rs[..k] + rs[k + 1..];
    }
  }

  /** `handleDeleteReceipt(id)` followed by the dialog answer. */
  function HandleDeleteReceipt(e: Editor, id: int, choice: Choice): (r: Editor)
    ensures choice == Cancel ==> r == e
    ensures choice == Confirm ==>
      && (forall x :: x in r.receipts <==> x in e.receipts && x.id != id)
      && r.receipts == WithoutId(e.receipts, id)
      && id !in r.menuVisible
      && (forall k :: k != id ==> (k in r.menuVisible <==> k in e.menuVisible))
      && (forall k :: k != id && k in e.menuVisible ==> r.menuVisible[k] == e.menuVisible[k])
      && r.(receipts := e.receipts, menuVisible := e.menuVisible) == e
  {
    match choice
    case Cancel => e
    case Confirm =>
      WithoutIdMembers(e.receipts, id);
      e.(receipts := WithoutId(e.receipts, id), menuVisible := e.menuVisible - {id})
  }

  /** Adding a receipt and then deleting it restores the receipt list. */
  lemma AddThenDeleteRestores(e: Editor, source: Source, name: string, today: string)
    ensures var added := HandleAddReceipt(e, source, name, today);
      HandleDeleteReceipt(added, NextId(e.receipts), Confirm).receipts == e.receipts
  {
    var added := HandleAddReceipt(e, source, name, today);
    var id := NextId(e.receipts);
    assert added.receipts == e.receipts + [added.receipts[|e.receipts|]];
    WithoutIdConcat(e.receipts, [added.receipts[|e.receipts|]], id);
    WithoutAbsentId(e.receipts, id);
  }

  // ---------------------------------------------------------------------
  // Per-receipt menus
  // ---------------------------------------------------------------------

  /** `menuVisible[id] || false`. */
  predicate MenuShown(m: map<int, bool>, id: int) {
    id in m && m[id]
  }

  /** `toggleMenu(id)`. */
  function ToggleMenu(m: map<int, bool>, id: int): (r: map<int, bool>)
    ensures MenuShown(r, id) == !MenuShown(m, id)
    ensures r.Keys == m.Keys + {id}
    ensures forall k :: k in m && k != id ==> r[k] == m[k]
  {
    m[id := !MenuShown(m, id)]
  }

  /** Toggling the same menu twice shows exactly the menus shown before. */
  lemma ToggleTwice(m: map<int, bool>, id: int)
    ensures forall k :: MenuShown(ToggleMenu(ToggleMenu(m, id), id), k) == MenuShown(m, k)
  {
  }

  /** The menu button (and the menu's dismissal) of receipt `id`. */
  function HandleToggleMenu(e: Editor, id: int): (r: Editor)
    ensures MenuShown(r.menuVisible, id) == !MenuShown(e.menuVisible, id)
    ensures forall k :: k != id ==> MenuShown(r.menuVisible, k) == MenuShown(e.menuVisible, k)
    ensures r.(menuVisible := e.menuVisible) == e
  {
    e.(menuVisible := ToggleMenu(e.menuVisible, id))
  }

  /** The "View" entry of a receipt menu: every menu closes. */
  function HandleViewReceipt(e: Editor): (r: Editor)
    ensures forall k :: !MenuShown(r.menuVisible, k)
    ensures r.(menuVisible := e.menuVisible) == e
  {
    e.(menuVisible := map[])
  }

  // ---------------------------------------------------------------------
  // Status badge and expense deletion
  // ---------------------------------------------------------------------

  datatype Badge = ApprovedBadge | PendingBadge | RejectedBadge

  /** The badge style chosen for the record's status. */
  function BadgeFor(status: string): (b: Badge)
    ensures b == ApprovedBadge <==> status == "Approved"
    ensures b == PendingBadge <==> status == "Pending"
    ensures b == RejectedBadge <==> status != "Approved" && status != "Pending"
  {
    if status == "Approved" then ApprovedBadge
    else if status == "Pending" then PendingBadge
    else RejectedBadge
  }

  /** `handleDelete` followed by the dialog answer: deleting goes back,
      cancelling stays. */
  function HandleDeleteExpense(choice: Choice): (effect: Effect)
    ensures choice == Confirm <==> effect == Navigate(Back)
    ensures choice == Cancel <==> effect == Nothing
  {
    match choice
    case Confirm => Navigate(Back)
    case Cancel => Nothing
  }
}

=== FILE: js.dfy ===
/** The small part of JavaScript's string and number semantics that the
    screens' logic depends on: truthiness, `trim`, `includes`,
    `toUpperCase`, integer-to-string conversion and the NaN test on
    `parseFloat`. Strings are sequences of code points. */
module Js {

  /** A string is truthy exactly when it is not empty. */
  predicate Truthy(s: string) {
    s != []
  }

  /** `s || fallback` on strings. */
  function OrElse(s: string, fallback: string): (r: string)
    ensures Truthy(s) ==> r == s
    ensures !Truthy(s) ==> r == fallback
  {
    if Truthy(s) then s else fallback
  }

  // ---------------------------------------------------------------------
  // White space and trim
  // ---------------------------------------------------------------------

  /** ECMAScript WhiteSpace and LineTerminator code points (the set that
      `String.prototype.trim` strips): TAB, LF, VT, FF, CR, the space
      separators of category Zs, LS, PS and the byte order mark. */
  predicate IsWhitespace(c: char) {
    var n := c as int;
    || (0x09 <= n <= 0x0D)
    || n == 0x20 || n == 0xA0 || n == 0x1680
    || (0x2000 <= n <= 0x200A)
    || n == 0x2028 || n == 0x2029 || n == 0x202F || n == 0x205F
    || n == 0x3000 || n == 0xFEFF
  }

  /** Every character of `s` is white space (the empty string included). */
  predicate IsBlank(s: string) {
    forall i :: 0 <= i < |s| ==> IsWhitespace(s[i])
  }

  /** Number of leading white-space characters. */
  function LeadingBlanks(s: string): (k: nat)
    ensures k <= |s|
    ensures IsBlank(s[..k])
    ensures k < |s| ==> !IsWhitespace(s[k])
  {
    if s == [] || !IsWhitespace(s[0]) then 0
    else
      var k' := LeadingBlanks(s[1..]);
      assert s[..1 + k'] == [s[0]] + s[1..][..k'];
      1 + k'
  }

  /** Number of trailing white-space characters. */
  function TrailingBlanks(s: string): (k: nat)
    ensures k <= |s|
    ensures IsBlank(s[|s| - k..])
    ensures k < |s| ==> !IsWhitespace(s[|s| - k - 1])
  {
    if s == [] || !IsWhitespace(s[|s| - 1]) then 0
    else
      var init := s[..|s| - 1];
      var k' := TrailingBlanks(init);
      assert s[|s| - (1 + k')..] == init[|init| - k'..] + [s[|s| - 1]];
      1 + k'
  }

  /** `String.prototype.trimStart`. */
  function TrimStart(s: string): (r: string)
    ensures r == [] || !IsWhitespace(r[0])
    ensures |r| <= |s| && r == s[|s| - |r|..] && IsBlank(s[..|s| - |r|])
  {
    var k := LeadingBlanks(s);
    s[k..]
  }

  /** `String.prototype.trimEnd`. */
  function TrimEnd(s: string): (r: string)
    ensures r == [] || !IsWhitespace(r[|r| - 1])
    ensures |r| <= |s| && r == s[..|r|] && IsBlank(s[|r|..])
  {
    var k := TrailingBlanks(s);
    s[..|s| - k]
  }

  /** `String.prototype.trim`. */
  function Trim(s: string): (r: string)
    ensures |r| <= |s|
    ensures r == [] || (!IsWhitespace(r[0]) && !IsWhitespace(r[|r| - 1]))
  {
    TrimEnd(TrimStart(s))
  }

  /** A blank string has nothing but leading white space. */
  lemma BlankAllLeading(s: string)
    requires IsBlank(s)
    ensures LeadingBlanks(s) == |s|
  {
  }

  /** Trimming a blank string leaves nothing. */
  lemma TrimOfBlank(s: string)
    requires IsBlank(s)
    ensures Trim(s) == []
  {
    BlankAllLeading(s);
    assert TrimStart(s) == [];
  }

  /** A string that trims to nothing is blank. */
  lemma BlankOfEmptyTrim(s: string)
    requires Trim(s) == []
    ensures IsBlank(s)
  {
    var u := TrimStart(s);
    assert u[0..] == u;
    assert u == [];
    assert s[..|s|] == s;
  }

  /** `!s.trim()`: trimming leaves nothing exactly when the string is blank. */
  lemma TrimEmptyIffBlank(s: string)
    ensures Trim(s) == [] <==> IsBlank(s)
  {
    if IsBlank(s) {
      TrimOfBlank(s);
    }
    if Trim(s) == [] {
      BlankOfEmptyTrim(s);
    }
  }

  // ---------------------------------------------------------------------
  // includes
  // ---------------------------------------------------------------------

  /** `sub` occurs in `s` starting at position `i`. */
  predicate OccursAt(s: string, sub: string, i: int) {
    0 <= i && i + |sub| <= |s| && s[i..i + |sub|] == sub
  }

  /** `String.prototype.includes`. */
  function Includes(s: string, sub: string): (b: bool)
    ensures b <==> exists i :: OccursAt(s, sub, i)
    decreases |s|
  {
    if |sub| > |s| then
      assert forall i :: !OccursAt(s, sub, i);
      false
    else if s[..|sub|] == sub then
      assert OccursAt(s, sub, 0);
      true
    else
      var rest := Includes(s[1..], sub);
      OccursShift(s, sub);
      rest
  }

  /** Occurrences in `s[1..]` are the occurrences in `s` after position 0. */
  lemma OccursShift(s: string, sub: string)
    requires |s| > 0
    requires !OccursAt(s, sub, 0)
    ensures (exists i :: OccursAt(s[1..], sub, i)) <==> (exists i :: OccursAt(s, sub, i))
  {
    forall i | OccursAt(s[1..], sub, i)
      ensures OccursAt(s, sub, i + 1)
    {
      assert s[1..][i..i + |sub|] == s[i + 1..i + 1 + |sub|];
    }
    forall i | OccursAt(s, sub, i)
      ensures OccursAt(s[1..], sub, i - 1)
    {
      assert i != 0;
      assert s[1..][i - 1..i - 1 + |sub|] == s[i..i + |sub|];
    }
  }

  // ---------------------------------------------------------------------
  // toUpperCase
  // ---------------------------------------------------------------------

  predicate IsLowerAscii(c: char) {
    'a' <= c <= 'z'
  }

  function UpperChar(c: char): (u: char)
    ensures !IsLowerAscii(u)
    ensures IsLowerAscii(c) ==> u as int == c as int - 32
    ensures !IsLowerAscii(c) ==> u == c
  {
    if IsLowerAscii(c) then (c as int - 32) as char else c
  }

  /** `String.prototype.toUpperCase` restricted to ASCII letters. */
  function ToUpperCase(s: string): (r: string)
    ensures |r| == |s|
    ensures forall i :: 0 <= i < |r| ==> !IsLowerAscii(r[i])
    ensures forall i :: 0 <= i < |s| && !IsLowerAscii(s[i]) ==> r[i] == s[i]
    ensures forall i :: 0 <= i < |s| && IsLowerAscii(s[i]) ==> r[i] as int == s[i] as int - 32
  {
    if s == [] then [] else [UpperChar(s[0])] + ToUpperCase(s[1..])
  }

  /** Upper-casing twice is upper-casing once. */
  lemma ToUpperCaseIdempotent(s: string)
    ensures ToUpperCase(ToUpperCase(s)) == ToUpperCase(s)
  {
    var u := ToUpperCase(s);
    assert forall i :: 0 <= i < |u| ==> ToUpperCase(u)[i] == u[i];
  }

  // ---------------------------------------------------------------------
  // Integers as decimal strings
  // ---------------------------------------------------------------------

  predicate IsDigit(c: char) {
    '0' <= c <= '9'
  }

  predicate AllDigits(s: string) {
    forall i :: 0 <= i < |s| ==> IsDigit(s[i])
  }

  function DigitChar(d: nat): (c: char)
    requires d < 10
    ensures IsDigit(c)
    ensures c as int - '0' as int == d
  {
    ('0' as int + d) as char
  }

  /** `String(n)` for a non-negative integer: its shortest decimal form. */
  function NatToString(n: nat): (r: string)
    ensures |r| >= 1
    ensures AllDigits(r)
    ensures |r| > 1 ==> r[0] != '0'
  {
    if n < 10 then [DigitChar(n)]
    else NatToString(n / 10) + [DigitChar(n % 10)]
  }

  /** The value of a string of decimal digits. */
  function ParseNat(s: string): nat
    requires AllDigits(s)
  {
    if s == [] then 0
    else ParseNat(s[..|s| - 1]) * 10 + (s[|s| - 1] as int - '0' as int)
  }

  lemma {:induction false} ParseNatOfNatToString(n: nat)
    ensures ParseNat(NatToString(n)) == n
  {
    if n >= 10 {
      var s := NatToString(n);
      assert s[..|s| - 1] == NatToString(n / 10);
      ParseNatOfNatToString(n / 10);
    }
  }

  /** `String(i)` (equivalently `${i}`) for an integer. */
  function IntToString(i: int): (r: string)
    ensures i >= 0 ==> |r| >= 1 && AllDigits(r) && (|r| == 1 || r[0] != '0')
    ensures i < 0 ==> |r| > 1 && r[0] == '-' && AllDigits(r[1..]) && (|r| == 2 || r[1] != '0')
  {
    if i < 0 then "-" + NatToString(-i) else NatToString(i)
  }

  /** The inverse of `IntToString` on its range. */
  function ParseInt(s: string): int
    requires AllDigits(s) || (|s| > 0 && s[0] == '-' && AllDigits(s[1..]))
  {
    if |s| > 0 && s[0] == '-' then 0 - ParseNat(s[1..]) else ParseNat(s)
  }

  lemma IntToStringRoundTrip(i: int)
    ensures ParseInt(IntToString(i)) == i
  {
    if i < 0 {
      assert IntToString(i)[1..] == NatToString(-i);
      ParseNatOfNatToString(-i);
    } else {
      ParseNatOfNatToString(i);
    }
  }

  // ---------------------------------------------------------------------
  // isNaN(parseFloat(s))
  // ---------------------------------------------------------------------

  predicate StartsWith(s: string, prefix: string) {
    |prefix| <= |s| && s[..|prefix|] == prefix
  }

  /** `parseFloat` strips leading white space and reads the longest prefix
      that is a StrDecimalLiteral (ECMA-262, the global function
      parseFloat); it yields NaN exactly when no non-empty prefix
      qualifies, i.e. when, after an optional sign, the text starts neither
      with "Infinity", nor with a digit, nor with "." followed by a digit. */
  predicate ParseFloatIsNaN(s: string) {
    var t := s[LeadingBlanks(s)..];
    var u := if t != [] && (t[0] == '+' || t[0] == '-') then t[1..] else t;
    !(|| StartsWith(u, "Infinity")
      || (u != [] && IsDigit(u[0]))
      || (|u| >= 2 && u[0] == '.' && IsDigit(u[1])))
  }
}

=== FILE: login.dfy ===
/** The login screen (app/login.tsx). Any non-empty email and password are
    accepted after a simulated delay; the delay is a pending timer that
    holds the credentials its callback closed over and fires as a separate
    event. */
module Login {
  import opened Wrappers
  import opened Routing

  /** The values the timer callback closed over when it was scheduled. */
  datatype Captured = Captured(email: string, password: string)

  datatype Screen = Screen(email: string, password: string, loading: bool, timer: Option<Captured>)

  datatype Event =
    | TypeEmail(text: string)
    | TypePassword(text: string)
    | PressSignIn
    | PressDemo
    | TimerFires

  const Initial := Screen("", "", false, None)
  const MissingCredentials := "Please enter both email and password"
  const InvalidCredentials := "Invalid credentials"
  const DemoEmail := "demo@company.com"
  const DemoPassword := "demo123"
  const Home := "/(tabs)"

  /** `handleLogin`: an empty field is reported and nothing starts;
      otherwise loading starts and the accept callback is scheduled with the
      values just checked. */
  function HandleLogin(s: Screen): (r: (Screen, Effect))
    ensures s.email == "" || s.password == "" ==> r == (s, ShowError(MissingCredentials))
    ensures s.email != "" && s.password != "" ==>
      && r.0.loading
      && r.0.timer == Some(Captured(s.email, s.password))
      && r.0.email == s.email && r.0.password == s.password
      && r.1 == Nothing
  {
    if s.email == "" || s.password == "" then (s, ShowError(MissingCredentials))
    else (s.(loading := true, timer := Some(Captured(s.email, s.password))), Nothing)
  }

  /** The timer callback: loading ends, and the captured values decide
      between going home and the "Invalid credentials" error. */
  function FireTimer(s: Screen): (r: (Screen, Effect))
    requires s.timer.Some?
    ensures !r.0.loading && r.0.timer == None
    ensures r.0.email == s.email && r.0.password == s.password
    ensures r.1 == Navigate(Replace(Home)) <==> s.timer.value.email != "" && s.timer.value.password != ""
    ensures r.1 != Navigate(Replace(Home)) ==> r.1 == ShowError(InvalidCredentials)
  {
    var c := s.timer.value;
    var s' := s.(loading := false, timer := None);
    if c.email != "" && c.password != "" then (s', Navigate(Replace(Home)))
    else (s', ShowError(InvalidCredentials))
  }

  /** `handleDemoLogin`: fills in the demo pair and does not sign in. */
  function HandleDemoLogin(s: Screen): (r: Screen)
    ensures r.email == DemoEmail && r.password == DemoPassword
    ensures r.loading == s.loading && r.timer == s.timer
  {
    s.(email := DemoEmail, password := DemoPassword)
  }

  /** The sign-in button is disabled while loading; the timer fires only
      when scheduled. Typing and the demo button are always available. */
  predicate Enabled(s: Screen, ev: Event) {
    match ev
    case PressSignIn => !s.loading
    case TimerFires => s.timer.Some?
    case _ => true
  }

  function Step(s: Screen, ev: Event): (r: (Screen, Effect))
    requires Enabled(s, ev)
    ensures ev.TypeEmail? ==> r == (s.(email := ev.text), Nothing)
    ensures ev.TypePassword? ==> r == (s.(password := ev.text), Nothing)
    ensures ev == PressSignIn ==> r == HandleLogin(s)
    ensures ev == PressDemo ==> r == (HandleDemoLogin(s), Nothing)
    ensures ev == TimerFires ==> r == FireTimer(s)
  {
    match ev
    case TypeEmail(t) => (s.(email := t), Nothing)
    case TypePassword(t) => (s.(password := t), Nothing)
    case PressSignIn => HandleLogin(s)
    case PressDemo => (HandleDemoLogin(s), Nothing)
    case TimerFires => FireTimer(s)
  }

  /** The screen's invariant: loading exactly while a callback is pending,
      and a pending callback holds two non-empty values. */
  predicate Valid(s: Screen) {
    && (s.loading <==> s.timer.Some?)
    && (s.timer.Some? ==> s.timer.value.email != "" && s.timer.value.password != "")
  }

  /** Every step keeps the invariant; in particular a second sign-in
      cannot be scheduled while one is pending. */
  lemma StepKeepsValid(s: Screen, ev: Event)
    requires Valid(s)
    requires Enabled(s, ev)
    ensures Valid(Step(s, ev).0)
    ensures ev == PressSignIn ==> s.timer == None
  {
  }

  /** In a valid state the callback always goes home: the
      "Invalid credentials" branch cannot be taken, even if the fields were
      cleared after the press. */
  lemma TimerAlwaysAccepts(s: Screen)
    requires Valid(s)
    requires s.timer.Some?
    ensures FireTimer(s).1 == Navigate(Replace(Home))
    ensures !FireTimer(s).0.loading
  {
  }

  /** The state after a sequence of events and the effects shown along the
      way, or nothing if some event was not available when it came. */
  function Run(s: Screen, evs: seq<Event>): (r: Option<(Screen, seq<Effect>)>)
    ensures evs == [] ==> r == Some((s, []))
    ensures r.Some? ==> |r.value.1| == |evs|
    decreases |evs|
  {
    if evs == [] then Some((s, []))
    else if !Enabled(s, evs[0]) then None
    else
      var (s', e) := Step(s, evs[0]);
      match Run(s', evs[1..])
      case None => None
      case Some((final, rest)) => Some((final, [e] + rest))
  }

  /** From a valid screen, no run ever shows "Invalid credentials" and
      every state reached is valid. */
  lemma {:induction false} RunsNeverRejectCredentials(s: Screen, evs: seq<Event>)
    requires Valid(s)
    ensures Run(s, evs).Some? ==> Valid(Run(s, evs).value.0)
    ensures Run(s, evs).Some? ==>
      forall k :: 0 <= k < |Run(s, evs).value.1| ==> Run(s, evs).value.1[k] != ShowError(InvalidCredentials)
    decreases |evs|
  {
    if evs != [] && Enabled(s, evs[0]) {
      StepKeepsValid(s, evs[0]);
      var (s', e) := Step(s, evs[0]);
      assert e != ShowError(InvalidCredentials);
      RunsNeverRejectCredentials(s', evs[1..]);
    }
  }

  lemma InitialValid()
    ensures Valid(Initial) && !Initial.loading
  {
  }

  /** Signing in with the demo pair goes home once the timer fires. */
  lemma DemoSignInGoesHome()
    ensures Run(Initial, [PressDemo, PressSignIn, TimerFires])
         == Some((Screen(DemoEmail, DemoPassword, false, None), [Nothing, Nothing, Navigate(Replace(Home))]))
  {
    var filled := Screen(DemoEmail, DemoPassword, false, None);
    var waiting := Screen(DemoEmail, DemoPassword, true, Some(Captured(DemoEmail, DemoPassword)));
    var home := Navigate(Replace(Home));
    assert [home] + [] == [home];
    assert [Nothing] + [home] == [Nothing, home];
    assert [Nothing] + [Nothing, home] == [Nothing, Nothing, home];
    assert Run(filled, []) == Some((filled, []));
    assert Run(waiting, [TimerFires]) == Some((filled, [Navigate(Replace(Home))]));
    assert Run(filled, [PressSignIn, TimerFires]) == Some((filled, [Nothing, Navigate(Replace(Home))]));
  }
}

=== FILE: receipt_detail.dfy ===
/** The receipt detail screen (app/receipt-detail.tsx): which receipt a
    route shows, the colour of its status, and the display fallbacks for
    its optional fields. */
module ReceiptDetail {
  import opened Js
  import opened Wrappers
  import opened Routing

  /** A receipt of this screen. `status` is typed as one of three words in
      the source but is a plain string at run time. */
  datatype Receipt = Receipt(
    id: string, description: string, amount: real, date: string, status: string,
    merchant: Option<string>, category: Option<string>, notes: Option<string>)

  const MockReceipts: seq<Receipt> := [
    Receipt("1", "Lunch with client", 45.0, "2024-01-15", "pending",
      Some("Restaurant ABC"), Some("Meals"), Some("Business lunch with potential client")),
    Receipt("2", "Office supplies", 89.99, "2024-01-14", "approved",
      Some("Office Depot"), Some("Office Supplies"), Some("Printer ink and paper")),
    Receipt("3", "Taxi fare", 25.5, "2024-01-12", "rejected",
      Some("City Cab"), Some("Transportation"), Some("From office to client site"))
  ]

  /** `r.id === receiptId`: only a string parameter can be equal. */
  predicate Matches(r: Receipt, receiptId: Param) {
    receiptId == Str(r.id)
  }

  /** The position of the first receipt matching the parameter. */
  function FirstMatch(rs: seq<Receipt>, receiptId: Param): (k: Option<nat>)
    ensures k.Some? ==> k.value < |rs| && Matches(rs[k.value], receiptId)
    ensures k.Some? ==> forall j :: 0 <= j < k.value ==> !Matches(rs[j], receiptId)
    ensures k.None? ==> forall j :: 0 <= j < |rs| ==> !Matches(rs[j], receiptId)
  {
    if rs == [] then None
    else if Matches(rs[0], receiptId) then Some(0)
    else match FirstMatch(rs[1..], receiptId)
      case None => None
      case Some(k) => Some(k + 1)
  }

  /** `receipts.find(r => r.id === receiptId) || receipts[0]`. The list the
      screen searches is a fixed non-empty constant. */
  function FindReceipt(rs: seq<Receipt>, receiptId: Param): (r: Receipt)
    requires |rs| > 0
    ensures r in rs
    ensures (exists j :: 0 <= j < |rs| && Matches(rs[j], receiptId)) ==>
      exists k :: 0 <= k < |rs| && rs[k] == r && Matches(r, receiptId)
        && forall j :: 0 <= j < k ==> !Matches(rs[j], receiptId)
    ensures (forall j :: 0 <= j < |rs| ==> !Matches(rs[j], receiptId)) ==> r == rs[0]
  {
    match FirstMatch(rs, receiptId)
    case Some(k) => rs[k]
    case None => rs[0]
  }

  /** The screen's own list: each id finds its receipt, anything else
      (another id, a missing or repeated parameter) shows the first one. */
  lemma MockLookup(receiptId: Param)
    ensures receiptId == Str("2") ==> FindReceipt(MockReceipts, receiptId) == MockReceipts[1]
    ensures receiptId == Str("3") ==> FindReceipt(MockReceipts, receiptId) == MockReceipts[2]
    ensures receiptId != Str("2") && receiptId != Str("3") ==> FindReceipt(MockReceipts, receiptId) == MockReceipts[0]
  {
  }

  /** Status colours. */
  datatype Colour = Green | Orange | Red | Grey

  /** `getStatusColor`: approved green (#4CAF50), pending orange
      (#FF9800), rejected red (#F44336), anything else grey (#90A4AE). */
  function StatusColour(status: string): (c: Colour)
    ensures c == Green <==> status == "approved"
    ensures c == Orange <==> status == "pending"
    ensures c == Red <==> status == "rejected"
    ensures c == Grey <==> status != "approved" && status != "pending" && status != "rejected"
  {
    if status == "approved" then Green
    else if status == "pending" then Orange
    else if status == "rejected" then Red
    else Grey
  }

  /** The colour's hex code as the source writes it. */
  function Hex(c: Colour): string {
    match c
    case Green => "#4CAF50"
    case Orange => "#FF9800"
    case Red => "#F44336"
    case Grey => "#90A4AE"
  }

  /** The three statuses get three different colours, none of them the
      default grey. */
  lemma StatusColoursDistinct()
    ensures Hex(StatusColour("approved")) != Hex(StatusColour("pending"))
    ensures Hex(StatusColour("pending")) != Hex(StatusColour("rejected"))
    ensures Hex(StatusColour("approved")) != Hex(StatusColour("rejected"))
    ensures forall s :: s in ["approved", "pending", "rejected"] ==> Hex(StatusColour(s)) != "#90A4AE"
  {
  }

  /** `status.toUpperCase()` as shown in both status chips. */
  function StatusText(status: string): (t: string)
    ensures |t| == |status|
    ensures forall i :: 0 <= i < |t| ==> !IsLowerAscii(t[i])
    ensures status == "approved" ==> t == "APPROVED"
    ensures status == "pending" ==> t == "PENDING"
    ensures status == "rejected" ==> t == "REJECTED"
  {
    var t := ToUpperCase(status);
    assert status == "approved" ==> t == "APPROVED";
    assert status == "pending" ==> t == "PENDING";
    assert status == "rejected" ==> t == "REJECTED";
    t
  }

  /** `receipt.category || 'Uncategorized'`. */
  function CategoryText(category: Option<string>): (t: string)
    ensures t == "Uncategorized" <==> category.None? || category.value == "" || category.value == "Uncategorized"
    ensures category.Some? && category.value != "" ==> t == category.value
  {
    match category
    case Some(c) => OrElse(c, "Uncategorized")
    case None => "Uncategorized"
  }

  /** `receipt.notes && ...` and `receipt.merchant && ...`: an optional
      field's row or card appears only for a present, non-empty value. */
  predicate Shown(field: Option<string>) {
    field.Some? && Truthy(field.value)
  }

  /** What the screen shows for a receipt route. */
  datatype View = View(
    receipt: Receipt, colour: Colour, statusText: string, category: string,
    showMerchant: bool, showNotes: bool)

  function ShowReceipt(receiptId: Param): (v: View)
    ensures v.receipt == FindReceipt(MockReceipts, receiptId)
    ensures v.receipt in MockReceipts
    ensures v.colour == StatusColour(v.receipt.status)
    ensures v.category == CategoryText(v.receipt.category)
    ensures v.statusText == ToUpperCase(v.receipt.status)
    ensures v.showNotes <==> v.receipt.notes.Some? && v.receipt.notes.value != ""
    ensures v.showMerchant <==> v.receipt.merchant.Some? && v.receipt.merchant.value != ""
    ensures v.colour != Grey
  {
    var r := FindReceipt(MockReceipts, receiptId);
    View(r, StatusColour(r.status), StatusText(r.status), CategoryText(r.category),
         Shown(r.merchant), Shown(r.notes))
  }
}

=== FILE: receipt_media.dfy ===
/** Receipts as the expense editor and the report detail screen list them,
    how a new one is named and typed, and which icon it is shown with. */
module ReceiptMedia {
  import opened Js

  /** A receipt attached to an expense: a numeric id, a display name, the
      date and amount as display text, and a MIME type. */
  datatype Receipt = Receipt(id: int, name: string, date: string, amount: string, mimeType: string)

  /** Where a new receipt comes from: the 'photo', 'upload_photo' and
      'upload_file' entries of the add menu. */
  datatype Source = Photo | UploadPhoto | UploadFile

  /** The MIME type recorded for a new receipt from `source`. */
  function MimeType(source: Source): (r: string)
    ensures r == "application/pdf" <==> source == UploadFile
    ensures r != "application/pdf" ==> r == "image/jpeg"
  {
    match source
    case Photo => "image/jpeg"
    case UploadPhoto => "image/jpeg"
    case UploadFile => "application/pdf"
  }

  /** The name a new receipt gets when no name is given. */
  function DefaultName(source: Source): (r: string)
    ensures r != []
  {
    match source
    case Photo => "Camera Photo"
    case UploadPhoto => "Uploaded Photo"
    case UploadFile => "Uploaded File"
  }

  /** `name || <default for source>`. */
  function ReceiptName(source: Source, name: string): (r: string)
    ensures name != [] ==> r == name
    ensures name == [] ==> r == DefaultName(source)
    ensures r != []
  {
    OrElse(name, DefaultName(source))
  }

  datatype Icon = PdfIcon | ImageIcon

  /** `type.includes('pdf') ? 'file-pdf-box' : 'image'`. */
  function IconFor(mimeType: string): (icon: Icon)
    ensures icon == PdfIcon <==> exists i :: OccursAt(mimeType, "pdf", i)
  {
    if Includes(mimeType, "pdf") then PdfIcon else ImageIcon
  }

  /** A receipt added from a file upload is shown with the pdf icon; one
      added from the camera or a photo upload is shown as an image. */
  lemma IconOfNewReceipt(source: Source)
    ensures IconFor(MimeType(source)) == PdfIcon <==> source == UploadFile
  {
    var pdf := "application/pdf";
    assert OccursAt(pdf, "pdf", 12) by {
      assert pdf[12..15] == "pdf";
    }
    var jpeg := "image/jpeg";
    forall i | 0 <= i && i + 3 <= |jpeg|
      ensures !OccursAt(jpeg, "pdf", i)
    {
      assert jpeg[i..i + 3][0] == jpeg[i];
      assert jpeg[i..i + 3][1] == jpeg[i + 1];
    }
  }
}

=== FILE: report_detail.dfy ===
/** The report detail screen (app/report-detail.tsx): report fields taken
    from route parameters, the expenses of the report and the receipt list
    flattened out of them, where submitting returns to, and the small
    display decisions of its tabs. */
module ReportDetail {
  import opened Js
  import opened Routing
  import opened ReceiptMedia
  import ExpenseEdit

  // ---------------------------------------------------------------------
  // Report fields from route parameters
  // ---------------------------------------------------------------------

  const ExpensesTab := "/(tabs)/expenses"
  const CreditCardsTab := "/(tabs)/credit-cards"
  const DefaultReportName := "3.4.25 Report"
  const DefaultReportDate := "Mar 4, 2025"

  /** The route parameters the screen reads. */
  datatype RouteParams = RouteParams(
    sourcePage: Param, name: Param, date: Param, businessPurpose: Param, comment: Param)

  /** The report as displayed. */
  datatype Report = Report(
    name: Param, date: Param, businessPurpose: Param, comment: Param,
    status: string, reimbursableTotal: string)

  /** `params.sourcePage || '/(tabs)/expenses'`. */
  function SourcePage(p: RouteParams): (page: Param)
    ensures !ParamTruthy(p.sourcePage) ==> page == Str(ExpensesTab)
    ensures ParamTruthy(p.sourcePage) ==> page == p.sourcePage
  {
    ParamOr(p.sourcePage, ExpensesTab)
  }

  /** `reportData`: every absent or empty parameter falls back to its
      default, and the status is always "Not Submitted". */
  function ReportData(p: RouteParams): (r: Report)
    ensures !ParamTruthy(p.name) ==> r.name == Str(DefaultReportName)
    ensures !ParamTruthy(p.date) ==> r.date == Str(DefaultReportDate)
    ensures !ParamTruthy(p.businessPurpose) ==> r.businessPurpose == Str("")
    ensures !ParamTruthy(p.comment) ==> r.comment == Str("")
    ensures ParamTruthy(p.name) ==> r.name == p.name
    ensures ParamTruthy(p.date) ==> r.date == p.date
    ensures ParamTruthy(p.businessPurpose) ==> r.businessPurpose == p.businessPurpose
    ensures ParamTruthy(p.comment) ==> r.comment == p.comment
    ensures r.status == "Not Submitted"
  {
    Report(ParamOr(p.name, DefaultReportName), ParamOr(p.date, DefaultReportDate),
           ParamOr(p.businessPurpose, ""), ParamOr(p.comment, ""),
           "Not Submitted", "$245.50")
  }

  /** The business purpose and comment rows are rendered only for a truthy
      value; after defaulting, that is exactly when the parameter was given
      and not empty. */
  lemma OptionalRowsShown(p: RouteParams)
    ensures ParamTruthy(ReportData(p).businessPurpose) <==> p.businessPurpose != Absent && p.businessPurpose != Str("")
    ensures ParamTruthy(ReportData(p).comment) <==> p.comment != Absent && p.comment != Str("")
    ensures ReportData(p).name != Str("") && ReportData(p).date != Str("")
  {
  }

  /** `handleSubmit`, once the success dialog is dismissed: back to the
      credit cards tab exactly when the report was started there, to the
      expenses tab otherwise. */
  function HandleSubmit(p: RouteParams): (effect: Effect)
    ensures effect == Navigate(Push(CreditCardsTab)) <==> p.sourcePage == Str(CreditCardsTab)
    ensures effect != Navigate(Push(CreditCardsTab)) ==> effect == Navigate(Push(ExpensesTab))
  {
    Navigate(if SourcePage(p) == Str(CreditCardsTab) then Push(CreditCardsTab) else Push(ExpensesTab))
  }

  // ---------------------------------------------------------------------
  // Expenses and their receipts
  // ---------------------------------------------------------------------

  /** An expense of the report, with its receipts. */
  datatype ReportExpense = ReportExpense(
    id: int, description: string, amount: string, date: string,
    category: string, status: string, receipts: seq<Receipt>)

  const MockExpenses: seq<ReportExpense> := [
    ReportExpense(1, "Business Lunch", "$45.50", "Mar 4, 2025", "Meals", "Approved",
      [Receipt(1, "Restaurant Receipt", "Mar 4, 2025", "$45.50", "image/jpeg")]),
    ReportExpense(2, "Taxi to Airport", "$35.00", "Mar 3, 2025", "Transportation", "Pending",
      [Receipt(2, "Taxi Receipt", "Mar 3, 2025", "$35.00", "image/png")]),
    ReportExpense(3, "Hotel Stay", "$165.00", "Mar 2, 2025", "Accommodation", "Approved",
      [Receipt(3, "Hotel Invoice", "Mar 2, 2025", "$165.00", "application/pdf"),
       Receipt(4, "Hotel Parking Receipt", "Mar 2, 2025", "$15.00", "image/jpeg")])
  ]

  /** A receipt of the receipts tab: the receipt's own fields plus the id
      and description of the expense it belongs to. */
  datatype ListedReceipt = ListedReceipt(receipt: Receipt, expenseId: int, expenseDescription: string)

  /** `expense.receipts.map(receipt => ({...receipt, expenseId, expenseDescription}))`. */
  function Tagged(e: ReportExpense): (r: seq<ListedReceipt>)
    ensures |r| == |e.receipts|
    ensures forall j :: 0 <= j < |r| ==> r[j] == ListedReceipt(e.receipts[j], e.id, e.description)
  {
    seq(|e.receipts|, j requires 0 <= j < |e.receipts| => ListedReceipt(e.receipts[j], e.id, e.description))
  }

  /** The number of receipts over all expenses. */
  function ReceiptTotal(es: seq<ReportExpense>): nat {
    if es == [] then 0 else ReceiptTotal(es[..|es| - 1]) + |es[|es| - 1].receipts|
  }

  /** `mockExpenses.flatMap(...)`. */
  function Flatten(es: seq<ReportExpense>): (r: seq<ListedReceipt>)
    ensures |r| == ReceiptTotal(es)
  {
    if es == [] then [] else Flatten(es[..|es| - 1]) + Tagged(es[|es| - 1])
  }

  /** Receipt j of expense i sits at position (receipts of the expenses
      before i) + j of the flattened list, tagged with its expense: the
      list runs in expense order, then receipt order. */
  lemma {:induction false} FlattenPosition(es: seq<ReportExpense>, i: int, j: int)
    requires 0 <= i < |es|
    requires 0 <= j < |es[i].receipts|
    ensures ReceiptTotal(es[..i]) + j < |Flatten(es)|
    ensures Flatten(es)[ReceiptTotal(es[..i]) + j]
         == ListedReceipt(es[i].receipts[j], es[i].id, es[i].description)
  {
    var init := es[..|es| - 1];
    if i == |es| - 1 {
      assert es[..i] == init;
    } else {
      assert init[..i] == es[..i];
      assert init[i] == es[i];
      FlattenPosition(init, i, j);
    }
  }

  /** Every entry of the flattened list is some receipt of some expense,
      tagged with that expense. */
  lemma {:induction false} FlattenOrigin(es: seq<ReportExpense>, n: int)
    requires 0 <= n < |Flatten(es)|
    ensures exists i, j ::
      && 0 <= i < |es|
      && 0 <= j < |es[i].receipts|
      && Flatten(es)[n] == ListedReceipt(es[i].receipts[j], es[i].id, es[i].description)
  {
    var init := es[..|es| - 1];
    var last := |es| - 1;
    if n < |Flatten(init)| {
      FlattenOrigin(init, n);
      var i, j :| 0 <= i < |init| && 0 <= j < |init[i].receipts|
        && Flatten(init)[n] == ListedReceipt(init[i].receipts[j], init[i].id, init[i].description);
      assert init[i] == es[i];
    } else {
      var j := n - |Flatten(init)|;
      assert Flatten(es)[n] == ListedReceipt(es[last].receipts[j], es[last].id, es[last].description);
    }
  }

  /** The flattened list of the report's own expenses. */
  lemma MockReceiptsListed()
    ensures |Flatten(MockExpenses)| == 4
    ensures forall n :: 0 <= n < 4 ==> Flatten(MockExpenses)[n].receipt.id == n + 1
    ensures Flatten(MockExpenses)[3].expenseDescription == "Hotel Stay"
  {
    var f := Flatten(MockExpenses);
    assert MockExpenses[..2][..1] == MockExpenses[..1];
    assert MockExpenses[..3][..2] == MockExpenses[..2];
    assert MockExpenses[..1][..0] == [];
    assert MockExpenses[..3] == MockExpenses;
    assert Flatten(MockExpenses[..1]) == Tagged(MockExpenses[0]);
  }

  // ---------------------------------------------------------------------
  // Display decisions
  // ---------------------------------------------------------------------

  /** `${n} receipt${n !== 1 ? 's' : ''}`. */
  function ReceiptCountText(n: nat): (text: string)
    ensures StartsWith(text, NatToString(n) + " receipt")
    ensures text == NatToString(n) + " receipt" <==> n == 1
    ensures text[|text| - 1] == 's' <==> n != 1
  {
    NatToString(n) + " receipt" + (if n != 1 then "s" else "")
  }

  /** A listed receipt gets the pdf icon exactly when its MIME type
      mentions "pdf"; in the report's own list that is the hotel invoice
      alone. */
  lemma ListedIcons()
    ensures forall n :: 0 <= n < |Flatten(MockExpenses)| ==>
      (IconFor(Flatten(MockExpenses)[n].receipt.mimeType) == PdfIcon <==> n == 2)
  {
    MockReceiptsListed();
    var f := Flatten(MockExpenses);
    assert OccursAt("application/pdf", "pdf", 12);
    forall n, i | 0 <= n < 4 && n != 2 && 0 <= i && i + 3 <= |f[n].receipt.mimeType|
      ensures !OccursAt(f[n].receipt.mimeType, "pdf", i)
    {
      var t := f[n].receipt.mimeType;
      assert t[i..i + 3][0] == t[i] && t[i..i + 3][1] == t[i + 1];
    }
  }

  // ---------------------------------------------------------------------
  // Navigation from the expenses tab and the add menu
  // ---------------------------------------------------------------------

  const ExpenseEditPrefix := "/expense-edit?id="

  /** `handleExpensePress(id)`. */
  function HandleExpensePress(id: int): (nav: Nav)
    ensures nav.Push? && StartsWith(nav.path, ExpenseEditPrefix)
    ensures var v := nav.path[|ExpenseEditPrefix|..];
      (AllDigits(v) || (|v| > 0 && v[0] == '-' && AllDigits(v[1..]))) && ParseInt(v) == id
    ensures var v := nav.path[|ExpenseEditPrefix|..];
      id >= 0 ==> |v| >= 1 && (|v| == 1 || v[0] != '0')
  {
    IntToStringRoundTrip(id);
    var path := ExpenseEditPrefix + IntToString(id);
    assert path[|ExpenseEditPrefix|..] == IntToString(id);
    Push(path)
  }

  /** The `id` search parameter the router gives the editor for a path of
      the form `/expense-edit?id=<v>`. */
  function ExpenseEditParam(path: string): Param {
    if StartsWith(path, ExpenseEditPrefix) then Str(path[|ExpenseEditPrefix|..]) else Absent
  }

  /** Pressing an expense of the report opens the editor on the record with
      the same description, category, status and receipts. */
  lemma ExpensePressOpensSameExpense(k: int)
    requires 0 <= k < |MockExpenses|
    ensures var e := MockExpenses[k];
      var shown := ExpenseEdit.CurrentExpense(ExpenseEditParam(HandleExpensePress(e.id).path));
      && shown.description == e.description
      && shown.category == e.category
      && shown.status == e.status
      && shown.receipts == e.receipts
  {
    var e := MockExpenses[k];
    var param := ExpenseEditParam(HandleExpensePress(e.id).path);
    ExpensePressParam(e.id);
    ExpenseEdit.CurrentExpenseByKey(param);
    if k == 0 {
      assert param == Str("1");
    } else if k == 1 {
      assert param == Str("2");
    } else {
      assert param == Str("3");
    }
  }

  /** The route pushed for an expense hands the editor its id as text. */
  lemma ExpensePressParam(id: int)
    ensures ExpenseEditParam(HandleExpensePress(id).path) == Str(IntToString(id))
  {
    var path := HandleExpensePress(id).path;
    assert path[|ExpenseEditPrefix|..] == IntToString(id);
  }

  /** The entries of the "+" menu. */
  datatype MenuAction = TakePhoto | UploadPhoto | UploadFile | NewExpense | ExpenseList

  /** The header menu's visibility after a press, and what the press
      requests. */
  datatype MenuOutcome = MenuOutcome(menuVisible: bool, effect: Effect)

  /** `handleMenuItemPress(action)`: the menu closes; only "Take Photo"
      navigates, to the amount confirmation screen. */
  function HandleMenuItemPress(action: MenuAction): (r: MenuOutcome)
    ensures !r.menuVisible
    ensures r.effect != Nothing <==> action == TakePhoto
    ensures action == TakePhoto ==> r.effect == Navigate(Push("/confirm-amount"))
  {
    MenuOutcome(false, if action == TakePhoto then Navigate(Push("/confirm-amount")) else Nothing)
  }
}

=== FILE: routing.dfy ===
/** Route parameters and navigation requests, as the screens see them.
    A navigation call is not performed: a handler returns the destination
    it would navigate to, and the caller of the model decides what that
    means. */
module Routing {

  /** A search parameter of the current route. The router hands a screen
      `undefined`, a string, or an array of strings (a repeated key). */
  datatype Param = Absent | Str(value: string) | Arr(values: seq<string>)

  /** JavaScript truthiness of a parameter: `undefined` and `''` are falsy,
      every other string and every array (even an empty one) is truthy. */
  predicate ParamTruthy(p: Param) {
    match p
    case Absent => false
    case Str(s) => s != []
    case Arr(_) => true
  }

  /** `param || fallback` with a string fallback. */
  function ParamOr(p: Param, fallback: string): (r: Param)
    ensures r != Absent
    ensures ParamTruthy(p) ==> r == p
    ensures !ParamTruthy(p) ==> r == Str(fallback)
  {
    if ParamTruthy(p) then p else Str(fallback)
  }

  /** What a handler asks the router to do. */
  datatype Nav =
    | Push(path: string)     // router.push
    | Replace(path: string)  // router.replace
    | Back                   // router.back

  /** What a screen shows or requests in answer to an event, besides its
      new state. */
  datatype Effect = Nothing | ShowError(message: string) | Navigate(nav: Nav)

  /** The answer to a two-button confirmation dialog (Alert.alert with a
      Cancel and a destructive button). */
  datatype Choice = Cancel | Confirm
}

=== FILE: wrappers.dfy ===
/** Values that may be missing. */
module Wrappers {

  datatype Option<+T> = None | Some(value: T)
}
